=== FILE: README.md ===
# Telegram chat bots: a Dafny model of their logic

Three small Telegram bot scripts talk to the OpenAI chat and image services:

- `bot.py` chats with every user and draws pictures on request.
- `mbot.py` does the same behind an invitation-link access table. Grants expire lazily after thirty days, and the stored chat history is trimmed to a size budget before each chat request.
- `sokratkantbot.py` turns every message into a topic for a five-round dialogue between Socrates and Kant.

This project models the sequential logic behind the transport and proves what that logic promises:

- the access table (`add_user`, `check_access`) and the `/start` command that redeems an invitation link;
- the per-user chat histories: the user turn is appended, the reply is appended on success, and the history is cut to its last ten entries (`[-10:]`);
- the size trim of `mbot.py`;
- message routing and image-prompt extraction;
- the philosopher transcript.

Every external service call (chat completion, image generation) is a function parameter returning `Ok(value)` or `Err`. Handlers record the calls they make as `Request` values, so contracts can say what was sent, and how often. The serialized size `len(str(history))` is also a parameter, `size`. Time is a whole number of seconds.

Modules, one per concern:

| module | file | models |
|---|---|---|
| `Gateway` | gateway.dfy | the result of an external call |
| `Text` | text.dfy | Python's `isspace`, `strip`, `lower`, `startswith` |
| `Conversation` | conversation.dfy | turns, per-user histories, the ten-entry window, one chat round |
| `Routing` | routing.dfy | the draw trigger, `generate_image` (shared by `bot.py` and `mbot.py`) |
| `AccessStore` | access.dfy | the `users` table of `mbot.py` |
| `Trimming` | trimming.dfy | `trim_chat_history` of `mbot.py` |
| `Bot` | bot.dfy | `bot.py`'s handlers |
| `MBot` | mbot.dfy | `mbot.py`'s handlers |
| `SokratKant` | sokratkant.dfy | `sokratkantbot.py` |

`mbot.py`'s trim, as written, can drop the message it was called for (see Findings). `MBot.ChatAsWritten` and `MBot.HandleMessageAsWritten` model the code exactly. `MBot.HandleMessage` has the corrected trim through `MBot.Chat`. The dispatcher `MBot.Serve` takes either handler, and its lemmas hold for both.

## Model

| member | source | states |
|---|---|---|
| Text.Strip | bot.py:72 | `strip()` returns a contiguous piece of its input with only whitespace removed on either side; the result neither starts nor ends with whitespace, and it is empty exactly when the input is all whitespace |
| Text.StripUnique | bot.py:72 | the contract of `strip()` above has exactly one solution, so it fixes the result |
| Conversation.Window | bot.py:61 | `[-10:]` keeps at most ten entries; a short history is kept whole, a long one leaves exactly ten, and what is kept is a suffix |
| Conversation.WindowAbsorbs | bot.py:58-61 | cutting to ten, appending, and cutting again keeps the same entries as one cut at the end |
| Conversation.Exchange | bot.py:47-68 | one chat round sends exactly the stored history; on success the new history is the last ten of the sent history followed by the answer, so the answer is the newest entry, preceded by the newest entries sent, and nothing is dropped when fewer than ten were sent; on failure the history stays as sent and the user gets the apology |
| Conversation.ExchangeKeepsLastTurn | bot.py:58-61 | after a successful round the history ends with the last turn sent followed by the answer |
| Text.Lower | bot.py:30 | `lower()` keeps the length and lowercases each character on its own |
| Routing.IsDrawRequest | bot.py:30 | a message is a draw request exactly when it has at least seven characters whose lowercase forms spell the trigger word |
| Routing.ImagePrompt | bot.py:72 | the image prompt is a slice of the text after the first seven characters with only whitespace before and after it inside that text; it neither starts nor ends with whitespace, and it is empty exactly when the text has at most seven characters or only whitespace follows them |
| Routing.ImagePromptUnique | bot.py:72 | on a text longer than seven characters, any string meeting that contract is the prompt, so the prompt is exactly `text[7:].strip()` |
| Routing.GenerateImage | bot.py:70-94 | an empty prompt gets the validation reply and no call; otherwise exactly one image call with the prompt, and the reply is the captioned photo or the image apology |
| AccessStore.AddUser | mbot.py:49-61 | the insert fails exactly when the user id or the link is already in the table, leaving it unchanged; otherwise it adds one granted row with that link and time and changes no other row; link uniqueness is kept |
| AccessStore.CheckAccess | mbot.py:63-82 | access is granted exactly for an existing, granted row at most thirty days old; an expired grant is revoked; no row appears or disappears, other rows are unchanged, link and timestamp stay, and a grant is never given back |
| AccessStore.UnknownUserRefused | mbot.py:70-82 | a user without a row is refused and the table is unchanged |
| AccessStore.ThirtyDayBoundary | mbot.py:74 | exactly thirty days after the grant access still holds with the table unchanged; one second later it is refused and revoked |
| AccessStore.CheckAccessIdempotent | mbot.py:73-81 | a second check at the same moment gives the same answer and changes nothing more |
| AccessStore.RefusalIsFinal | mbot.py:73-82 | once a user who has a row is refused, every later check refuses them, whatever inserts and checks happen in between |
| AccessStore.RunKeepsRows | mbot.py:49-82 | over any sequence of inserts and checks a row never disappears, its link and timestamp never change, and a revoked grant never returns |
| AccessStore.RunKeepsUniqueLinks | mbot.py:40-46 | over any sequence of inserts and checks no two rows share a link |
| AccessStore.LinkRedeemedOnce | mbot.py:40-61 | after a link is redeemed, every later redemption of it fails, by any user and after any operations |
| Trimming.Trimmed | mbot.py:159-165 | the trim keeps the first entry followed by a suffix of the rest, in order; an empty history stays empty; it ends within budget or with one entry |
| Trimming.TrimmedIsMinimal | mbot.py:160-162 | every longer history of the same shape that the trim passed over was over budget, so it removes no more than it must |
| Trimming.TrimChatHistory | mbot.py:159-165 | the `pop(1)` loop computes the trim: first entry kept, suffix of the rest, empty history unchanged, within budget or one entry, each history it passed over was over budget |
| Trimming.TrimKeepingLatest | mbot.py:159-165 | the corrected trim keeps the first and the newest entries, in order, with a suffix in between, and ends within budget or with two entries |
| Trimming.TrimsAgreeAboveTwo | mbot.py:159-165 | whenever the trim as written ends with at least two entries, the corrected trim gives the same result |
| Trimming.TrimsDifferAtOne | mbot.py:159-165 | when the trim as written gets down to the first entry alone, the corrected trim keeps exactly the first and the newest entries |
| Trimming.TrimDropsNewestEntry | mbot.py:160-162 | with two entries over budget, the trim as written removes the second (the newest), while the corrected trim keeps both |
| Bot.ChatWithGpt | bot.py:35-68 | the user turn is appended to the stored history (or to a fresh empty one) and the whole of it is sent; on success the stored history is the last ten of the sent history followed by the answer, so it ends with the question and its answer; on failure it is the sent history, uncut; no other user's history changes |
| Bot.HandleMessage | bot.py:25-33 | a draw request leaves the histories unchanged, makes an image call only when the prompt is non-empty, and gets the image branch's reply; any other message makes one chat call with the stored history plus the message, stores the last ten of that plus the answer on success or that history uncut on failure, replies with the answer or the apology, and changes no other user's history |
| Bot.ConverseFollowsHandler | bot.py:35-68 | after any sequence of messages from one user, the history the handler leaves stored for that user is the one the per-user fold `Converse` computes |
| Bot.SuccessKeepsLastTen | bot.py:58-61 | while every call succeeds, the stored history is always the last ten of the starting history and all turns appended so far, from any starting history once a message has arrived |
| Bot.FailuresAccumulate | bot.py:44-68 | while every call fails, each message appends its user turn and nothing is cut, so the history grows past ten |
| MBot.ChatAsWritten | mbot.py:107-134 | as written, the history plus the message is trimmed by the loop as written, and that trimmed list is both sent and stored; it keeps the oldest entry and is within budget unless down to one entry; on success the stored history is the last ten of it followed by the answer; on failure it stays stored as sent |
| MBot.AsWrittenLosesMessage | mbot.py:114-121 | as written, a message after an oversized first entry is never sent and is missing from the stored history |
| MBot.Chat | mbot.py:107-134 | with the corrected trim, the user's message is the last turn sent and the oldest entry the first; on success the stored history is the last ten of the sent list followed by the answer, ending with the question and its answer; on failure the trimmed list stays stored |
| MBot.ChatsAgreeUnlessDownToOne | mbot.py:114-121 | the written and the corrected chat turns are identical exactly when the user has no history yet or the written trim keeps two entries or more; otherwise the written one sends only the oldest entry and the corrected one sends it and the message |
| MBot.Route | mbot.py:96-105 | the access check runs first and its revocation is kept; a refused user gets only the refusal, with no call and no history change; an admitted draw request leaves histories unchanged, calls the image service only for a non-empty prompt, and gets the image branch's reply; any other admitted message is the chat turn for that user only |
| MBot.HandleMessageAsWritten | mbot.py:96-134 | as written, an admitted chat message sends the stored history plus the message, trimmed by the loop as written, and stores that list, with the answer and cut to ten on success; the reply is the answer, or the apology on failure; the access gate and the draw branch are as in `MBot.Route` |
| MBot.HandleMessage | mbot.py:96-134 | with the corrected trim, an admitted chat message sends the trimmed stored history plus the message, which always ends the request, and stores it, with the answer and cut to ten on success; the reply is the answer, or the apology on failure; no other user's history changes; the access gate and the draw branch are as in `MBot.Route` |
| MBot.Start | mbot.py:85-94 | `/start` without an argument only gets the usage hint; with one it redeems the first argument, which succeeds, adding a granted row stamped now and greeting the user, exactly when neither the user nor the link has a row; it never calls a service or touches a history |
| MBot.ServeFollowsTableOps | mbot.py:85-105 | over any sequence of updates, with the message handler as written or corrected, the bot changes the access table exactly as the sequence of redemptions and checks those updates perform |
| MBot.ServeKeepsUniqueLinks | mbot.py:40-61 | with either message handler, no sequence of updates makes two users share an invitation link |
| MBot.RevokedUserStaysRefused | mbot.py:96-105 | with either message handler, once a user's grant is off, every later message of theirs is refused without a service call, whatever other updates arrive, and the grant stays off |
| SokratKant.PhilosopherRequest | sokratkantbot.py:56 | a request is the unchanged history plus one user instruction naming the philosopher |
| SokratKant.PhilosopherMessage | sokratkantbot.py:52-62 | a reply is the service's answer with surrounding whitespace stripped, so a piece of it; a failed call gives the fallback, which names the philosopher |
| SokratKant.Speak | sokratkantbot.py:37-48 | one more turn by the next speaker, replying to the request built from the history so far, keeps the transcript in order |
| SokratKant.GenerateDialogue | sokratkantbot.py:36-50 | the dialogue appends exactly ten entries and keeps the earlier history in place; the i-th new entry is the i-th speaker's reply to the request built from the history just before it, and is also the i-th message shown; the new entries are assistant turns prefixed with their speaker's name, Socrates first and then alternating; the closing message follows |
| SokratKant.Spoken | sokratkantbot.py:40-41 | the entry stored for a philosopher's turn is an assistant turn whose content is the speaker's name and a colon followed by exactly the philosopher's message |
| SokratKant.SystemPromptNamesTopic | sokratkantbot.py:32 | the system prompt contains the topic |
| SokratKant.HandleTopic | sokratkantbot.py:27-34 | a topic resets the history to one system entry naming it, which stays first; the transcript ends with eleven entries whose assistant turns alternate Socrates and Kant; the first request is the system entry plus Socrates' instruction; the topic announcement comes first and the closing message last |

## Left out

- Telegram transport is not modelled: polling and sending replies. Handler registration is `MBot.Handle`, and `MBot.Serve` handles updates one at a time in arrival order; both take a flag choosing `MBot.HandleMessageAsWritten` (the code) or the corrected `MBot.HandleMessage`. `mention_html()` is a string parameter of `MBot.Start`. The `start` greetings of `bot.py` and `sokratkantbot.py` only reply and are left out.
- The chat and image services, the model names and request parameters (`max_tokens=150`, `n=1`, image size) are not modelled. Each service is a parameter returning a value or a failure. It is a function of its request, so the model gives the same answer to the same request every time, which the real chat service need not do; no proved property depends on this. Any exception in the `try` blocks, including a malformed response, counts as that failure.
- Postgres is not modelled: the connection, SQL text, `init_db`, `load_dotenv` and logging. The `users` table is a map from user id to row. The insert's `IntegrityError` is the uniqueness test on both columns; other database errors are not modelled.
- Time is whole seconds, so `created_at`'s microsecond precision, time zones, and skew between the database's `CURRENT_TIMESTAMP` and the bot's `datetime.now()` are left out. `AccessStore.AddUser` takes the insertion time as a parameter.
- `user_id` is an unbounded integer, not a `BIGINT`.
- `time.sleep(random.uniform(1, 3))` between philosopher turns is left out; it does not affect state.
- Concurrency is left out. The process-wide dictionaries are values passed in and returned, and each handler is atomic.
- `len(str(history))` is the parameter `size`, not Python's `repr` of a list of dicts.
- `Text.LowerChar` covers ASCII and the Cyrillic capitals U+0400..U+042F only. Other scripts, and characters whose lowercase is longer than one character, map to themselves.
- A failed `reply_text` or `reply_photo`, and a reply whose content is `None`, are not modelled.
- `mbot.py` annotates handler parameters with `ContextTypes.DEFAULT_TYPE` (lines 85, 96, 107, 136) but line 4 does not import `ContextTypes`, and there is no `from __future__ import annotations`. Before Python 3.14 annotations are evaluated when each `def` runs, so loading the module would raise `NameError` at line 85 and `main()` would never run (not executed). The model assumes the handlers are defined.
- MBot.HandleMessage: runs the corrected trim, not the code as written; the code as written is `MBot.HandleMessageAsWritten`, and `MBot.ChatsAgreeUnlessDownToOne` states exactly where the two differ.

## Findings

| source | as written | input that shows it | evidently intended | confidence | as-written member | corrected member |
|---|---|---|---|---|---|---|
| mbot.py:159-165 | `trim_chat_history` removes index 1 while the history is over budget and has more than one entry. On a two-entry history it removes the user turn just appended at mbot.py:114. That turn is then never sent, and it is missing from the stored history. | A first stored entry whose serialized size alone exceeds 4000, then any new message (`TrimDropsNewestEntry` uses a size of 4001 per entry). | Keep the oldest entry and the new user turn; stop trimming at two entries. | not executed | MBot.ChatAsWritten | MBot.Chat |

The as-written half is `Trimming.Trimmed` and `Trimming.TrimChatHistory`, plus the counterexample lemmas `Trimming.TrimDropsNewestEntry` and `MBot.AsWrittenLosesMessage`. The corrected half is `Trimming.TrimKeepingLatest`, which `MBot.Chat` and `MBot.HandleMessage` use. `Trimming.TrimsAgreeAboveTwo` and `Trimming.TrimsDifferAtOne` prove that the two trims differ exactly where the written one gets down to a single entry, and `MBot.ChatsAgreeUnlessDownToOne` lifts that to the chat turn.

=== FILE: access.dfy ===
/** The `users` table of the access-controlled bot (mbot.py): one row per
    Telegram user who redeemed an invitation link, with lazy expiry of the
    thirty-day grant. Time is a count of seconds. */
module AccessStore {
  import opened Conversation

  /** `timedelta(days=30)` in seconds. */
  const ACCESS_PERIOD := 30 * 24 * 60 * 60

  /** A row of `users`: the redeemed `unique_link`, `access_granted` and `created_at`. */
  datatype Row = Row(link: string, granted: bool, createdAt: int)

  /** The table keyed by its unique `user_id` column. */
  type Store = map<UserId, Row>

  /** Some row already holds `link` in its unique `unique_link` column. */
  predicate LinkUsed(s: Store, link: string) {
    exists u :: u in s && s[u].link == link
  }

  /** The `UNIQUE` constraint on `unique_link`: no two rows share a link. */
  ghost predicate UniqueLinks(s: Store) {
    forall u, v :: u in s && v in s && u != v ==> s[u].link != s[v].link
  }

  /** The grant is older than thirty days (strict comparison). */
  predicate Expired(row: Row, now: int) {
    now - row.createdAt > ACCESS_PERIOD
  }

  /** `add_user`: inserts a granted row stamped `now`, or reports `false` and
      leaves the table as it was when either unique column would clash. */
  function AddUser(s: Store, uid: UserId, link: string, now: int): (r: (bool, Store))
    ensures !r.0 <==> uid in s || LinkUsed(s, link)
    ensures !r.0 ==> r.1 == s
    ensures r.0 ==> && r.1.Keys == s.Keys + {uid}
                    && r.1[uid] == Row(link, true, now)
                    && forall u :: u in s ==> r.1[u] == s[u]
    ensures UniqueLinks(s) ==> UniqueLinks(r.1)
  {
    if uid in s || LinkUsed(s, link) then (false, s)
    else (true, s[uid := Row(link, true, now)])
  }

  /** `check_access`: a query with a side effect. The answer is yes exactly
      for a granted row at most thirty days old; a granted row that is older
      has its grant revoked in the returned table. Nothing else changes: no
      row appears or disappears, links and timestamps stay, no grant is
      ever given back. */
  function CheckAccess(s: Store, uid: UserId, now: int): (r: (bool, Store))
    ensures r.0 <==> uid in s && s[uid].granted && !Expired(s[uid], now)
    ensures r.1.Keys == s.Keys
    ensures forall u :: u in s && u != uid ==> r.1[u] == s[u]
    ensures uid in s ==> && r.1[uid].link == s[uid].link
                         && r.1[uid].createdAt == s[uid].createdAt
                         && (r.1[uid].granted <==> s[uid].granted && !Expired(s[uid], now))
    ensures UniqueLinks(s) ==> UniqueLinks(r.1)
  {
    if uid in s && s[uid].granted then
      if Expired(s[uid], now) then (false, s[uid := s[uid].(granted := false)])
      else (true, s)
    else (false, s)
  }

  /** A user without a row is refused and the table is left alone. */
  lemma UnknownUserRefused(s: Store, uid: UserId, now: int)
    requires uid !in s
    ensures CheckAccess(s, uid, now) == (false, s)
  {
  }

  /** A grant exactly thirty days old still admits; one second later it is
      revoked. */
  lemma ThirtyDayBoundary(s: Store, uid: UserId, t0: int)
    requires uid in s && s[uid].granted && s[uid].createdAt == t0
    ensures CheckAccess(s, uid, t0 + ACCESS_PERIOD) == (true, s)
    ensures var r := CheckAccess(s, uid, t0 + ACCESS_PERIOD + 1);
            !r.0 && uid in r.1 && !r.1[uid].granted
  {
  }

  /** Checking twice at the same moment answers the same and changes nothing
      more: the revocation is done once. */
  lemma CheckAccessIdempotent(s: Store, uid: UserId, now: int)
    ensures var r := CheckAccess(s, uid, now);
            CheckAccess(r.1, uid, now) == (r.0, r.1)
  {
  }

  /** A refusal of a user who has a row is final: once `check_access` answers no,
      the grant is off in the table it leaves behind, and no sequence of
      inserts and checks turns it back on, so every later check answers no.
      (A user without a row is different: redeeming a link admits them.) */
  lemma RefusalIsFinal(s: Store, uid: UserId, now: int, ops: seq<Op>, later: int)
    requires uid in s
    requires !CheckAccess(s, uid, now).0
    ensures !CheckAccess(Run(CheckAccess(s, uid, now).1, ops), uid, later).0
  {
    RunKeepsRows(CheckAccess(s, uid, now).1, ops, uid);
  }

  /** The operations the bot performs on the table. */
  datatype Op = Redeem(uid: UserId, link: string, at: int) | Check(uid: UserId, at: int)

  function Apply(s: Store, op: Op): Store {
    match op
    case Redeem(uid, link, at) => AddUser(s, uid, link, at).1
    case Check(uid, at) => CheckAccess(s, uid, at).1
  }

  /** The table after a sequence of operations, applied in order. */
  function Run(s: Store, ops: seq<Op>): Store
    decreases |ops|
  {
    if ops == [] then s else Run(Apply(s, ops[0]), ops[1..])
  }

  /** Over any sequence of operations no row disappears, no link or
      timestamp changes, and no revoked grant comes back. */
  lemma {:induction false} RunKeepsRows(s: Store, ops: seq<Op>, u: UserId)
    requires u in s
    ensures var t := Run(s, ops);
            && u in t
            && t[u].link == s[u].link
            && t[u].createdAt == s[u].createdAt
            && (!s[u].granted ==> !t[u].granted)
    decreases |ops|
  {
    if ops != [] {
      RunKeepsRows(Apply(s, ops[0]), ops[1..], u);
    }
  }

  /** Running two sequences one after the other is running their
      concatenation. */
  lemma {:induction false} RunAppend(s: Store, a: seq<Op>, b: seq<Op>)
    ensures Run(s, a + b) == Run(Run(s, a), b)
    decreases |a|
  {
    if a != [] {
      assert (a + b)[0] == a[0] && (a + b)[1..] == a[1..] + b;
      RunAppend(Apply(s, a[0]), a[1..], b);
    } else {
      assert a + b == b;
    }
  }

  /** The uniqueness of links holds over any sequence of operations. */
  lemma {:induction false} RunKeepsUniqueLinks(s: Store, ops: seq<Op>)
    requires UniqueLinks(s)
    ensures UniqueLinks(Run(s, ops))
    decreases |ops|
  {
    if ops != [] {
      RunKeepsUniqueLinks(Apply(s, ops[0]), ops[1..]);
    }
  }

  /** An invitation link is redeemed at most once: after one successful
      redemption, every later attempt with the same link fails, whoever makes
      it and whatever happened in between. */
  lemma LinkRedeemedOnce(s: Store, uid: UserId, link: string, now: int,
                         ops: seq<Op>, other: UserId, later: int)
    requires AddUser(s, uid, link, now).0
    ensures !AddUser(Run(AddUser(s, uid, link, now).1, ops), other, link, later).0
  {
    var s1 := AddUser(s, uid, link, now).1;
    RunKeepsRows(s1, ops, uid);
    assert Run(s1, ops)[uid].link == link;
  }
}

=== FILE: bot.dfy ===
/** bot.py: a chat bot without access control. Every text message is either a
    draw request or a chat turn; the chat history is kept per user and the
    whole stored history is sent with every chat request. */
module Bot {
  import opened Gateway
  import opened Conversation
  import opened Routing

  /** What handling one message leaves behind. */
  datatype Outcome = Outcome(histories: Histories, calls: seq<Request>, reply: Reply)

  /** `chat_with_gpt`: the user's turn is stored first, the full stored history
      is sent, and on success the reply is stored and the history cut to the
      window; on failure the user's turn stays and nothing is cut. Other users'
      histories are untouched. */
  function ChatWithGpt(hs: Histories, uid: UserId, message: string,
                       chat: seq<Turn> -> Call<string>): (o: Outcome)
    ensures var sent := Prior(hs, uid) + [Turn(User, message)];
            && o.calls == [ChatRequest(sent)]
            && o.histories.Keys == hs.Keys + {uid}
            && (forall u :: u in hs && u != uid ==> o.histories[u] == hs[u])
            && (chat(sent).Ok? ==>
                  var h := o.histories[uid];
                  && h == Window(sent + [Turn(Assistant, chat(sent).value)])
                  && 2 <= |h| <= WINDOW
                  && h[|h| - 2..] == [Turn(User, message), Turn(Assistant, chat(sent).value)]
                  && o.reply == Text(chat(sent).value))
            && (chat(sent).Err? ==> o.histories[uid] == sent && o.reply == Text(CHAT_ERROR))
  {
    var sent := Prior(hs, uid) + [Turn(User, message)];
    var e := Exchange(sent, chat);
    ExchangeKeepsLastTurn(sent, chat);
    Outcome(hs[uid := e.history], e.calls, e.reply)
  }

  /** `handle_message`: a draw request goes to the image branch, gets the
      image branch's reply and leaves the histories alone; everything else is
      a chat turn for that user only, which sends the stored history plus the
      message and stores the outcome of the round. */
  function HandleMessage(hs: Histories, uid: UserId, text: string,
                         chat: seq<Turn> -> Call<string>,
                         draw: string -> Call<string>): (o: Outcome)
    ensures IsDrawRequest(text) ==>
              && o.histories == hs
              && o.calls == (if ImagePrompt(text) == [] then [] else [ImageRequest(ImagePrompt(text))])
              && o.reply == GenerateImage(text, draw).reply
    ensures !IsDrawRequest(text) ==>
              var sent := Prior(hs, uid) + [Turn(User, text)];
              && o.calls == [ChatRequest(sent)]
              && o.histories.Keys == hs.Keys + {uid}
              && o.histories[uid] ==
                   (if chat(sent).Ok? then Window(sent + [Turn(Assistant, chat(sent).value)]) else sent)
              && o.reply == (if chat(sent).Ok? then Text(chat(sent).value) else Text(CHAT_ERROR))
              && forall u :: u in hs && u != uid ==> o.histories[u] == hs[u]
  {
    if IsDrawRequest(text) then
      var d := GenerateImage(text, draw);
      Outcome(hs, d.calls, d.reply)
    else
      ChatWithGpt(hs, uid, text, chat)
  }

  /** The history table after `uid` sends `messages` one after another, each
      handled by `ChatWithGpt`. */
  function ChatAll(hs: Histories, uid: UserId, messages: seq<string>,
                   chat: seq<Turn> -> Call<string>): Histories
    decreases |messages|
  {
    if messages == [] then hs
    else ChatAll(ChatWithGpt(hs, uid, messages[0], chat).histories, uid, messages[1..], chat)
  }

  /** What one message leaves as the user's history: the outcome of the round
      on the stored history plus the message. */
  lemma ChatStores(hs: Histories, uid: UserId, message: string, chat: seq<Turn> -> Call<string>)
    ensures Prior(ChatWithGpt(hs, uid, message, chat).histories, uid)
            == Exchange(Prior(hs, uid) + [Turn(User, message)], chat).history
  {
  }

  /** One user's history after a sequence of chat messages, and every turn
      appended to it along the way (before any cut). */
  datatype Log = Log(stored: seq<Turn>, appended: seq<Turn>)

  function Converse(h: seq<Turn>, messages: seq<string>,
                    chat: seq<Turn> -> Call<string>): Log
    decreases |messages|
  {
    if messages == [] then Log(h, [])
    else
      var sent := h + [Turn(User, messages[0])];
      var e := Exchange(sent, chat);
      var added := if chat(sent).Ok? then [Turn(User, messages[0]), Turn(Assistant, chat(sent).value)]
                   else [Turn(User, messages[0])];
      var rest := Converse(e.history, messages[1..], chat);
      Log(rest.stored, added + rest.appended)
  }

  /** `Converse` follows the handler: the history it computes is the one
      `ChatWithGpt` leaves stored for the user after the same messages. */
  lemma {:induction false} ConverseFollowsHandler(hs: Histories, uid: UserId, messages: seq<string>,
                                                  chat: seq<Turn> -> Call<string>)
    ensures Prior(ChatAll(hs, uid, messages, chat), uid) == Converse(Prior(hs, uid), messages, chat).stored
    decreases |messages|
  {
    if messages != [] {
      var hs' := ChatWithGpt(hs, uid, messages[0], chat).histories;
      ChatStores(hs, uid, messages[0], chat);
      ConverseFollowsHandler(hs', uid, messages[1..], chat);
    }
  }

  /** While every chat call succeeds the stored history is exactly the last
      ten turns of the starting history and everything appended, in their
      original order. The starting history may be any length once at least
      one message arrives, since the first successful round cuts it. */
  lemma {:induction false} SuccessKeepsLastTen(h: seq<Turn>, messages: seq<string>,
                                               chat: seq<Turn> -> Call<string>)
    requires |h| <= WINDOW || messages != []
    requires forall x :: chat(x).Ok?
    ensures var l := Converse(h, messages, chat);
            l.stored == Window(h + l.appended)
    decreases |messages|
  {
    if messages != [] {
      var sent := h + [Turn(User, messages[0])];
      assert chat(sent).Ok?;
      var added := [Turn(User, messages[0]), Turn(Assistant, chat(sent).value)];
      var h' := Window(h + added);
      assert sent + [Turn(Assistant, chat(sent).value)] == h + added;
      assert Exchange(sent, chat).history == h';
      var rest := Converse(h', messages[1..], chat);
      assert Converse(h, messages, chat) == Log(rest.stored, added + rest.appended);
      SuccessKeepsLastTen(h', messages[1..], chat);
      WindowRegroups(h, added, rest.appended);
    }
  }

  lemma WindowRegroups(a: seq<Turn>, b: seq<Turn>, c: seq<Turn>)
    ensures Window(Window(a + b) + c) == Window(a + (b + c))
  {
    WindowAbsorbs(a + b, c);
    assert (a + b) + c == a + (b + c);
  }

  /** While every chat call fails nothing is ever cut: each message adds its
      user turn, so the history grows past the window. */
  lemma {:induction false} FailuresAccumulate(h: seq<Turn>, messages: seq<string>,
                                              chat: seq<Turn> -> Call<string>)
    requires forall x :: chat(x).Err?
    ensures var l := Converse(h, messages, chat);
            && l.stored == h + l.appended
            && |l.stored| == |h| + |messages|
            && forall i :: 0 <= i < |messages| ==> l.appended[i] == Turn(User, messages[i])
    decreases |messages|
  {
    if messages != [] {
      var u := Turn(User, messages[0]);
      var h' := h + [u];
      FailuresAccumulate(h', messages[1..], chat);
      var rest := Converse(h', messages[1..], chat);
      assert Exchange(h', chat).history == h';
      assert Converse(h, messages, chat) == Log(rest.stored, [u] + rest.appended);
      assert h' + rest.appended == h + ([u] + rest.appended);
      forall i | 0 <= i < |messages|
        ensures ([u] + rest.appended)[i] == Turn(User, messages[i])
      {
        if i > 0 {
          assert messages[i] == messages[1..][i - 1];
        }
      }
    }
  }
}

=== FILE: conversation.dfy ===
/** Chat history shared by both chat bots: turns in the chat-completion
    message format, the per-user history table, the ten-entry window kept
    after a successful reply, and one request/reply round. */
module Conversation {
  import opened Gateway

  type UserId = int

  /** The `role` field of a chat-completion message. */
  datatype Role = System | User | Assistant

  /** One `{"role": ..., "content": ...}` entry of a history. */
  datatype Turn = Turn(role: Role, content: string)

  /** A call into an external service, recorded so that contracts can say
      which calls a handler made and with what arguments. */
  datatype Request = ChatRequest(messages: seq<Turn>) | ImageRequest(prompt: string)

  /** What the bot sends back to the user. */
  datatype Reply = Text(body: string) | Photo(url: string, caption: string)

  /** The process-wide `conversation_history` dictionary. */
  type Histories = map<UserId, seq<Turn>>

  /** Number of entries kept after a successful reply (`[-10:]`). */
  const WINDOW := 10

  const CHAT_ERROR := "Извините, произошла ошибка при обработке вашего запроса."

  /** The history a user starts from: the stored one, or a fresh empty list. */
  function Prior(hs: Histories, uid: UserId): seq<Turn> {
    if uid in hs then hs[uid] else []
  }

  /** Python's `h[-10:]`: the whole list when it is short, else its last ten entries. */
  function Window(h: seq<Turn>): (r: seq<Turn>)
    ensures |r| <= WINDOW
    ensures |h| <= WINDOW ==> r == h
    ensures |h| > WINDOW ==> |r| == WINDOW
    ensures r == h[|h| - |r|..]
  {
    if |h| <= WINDOW then h else h[|h| - WINDOW..]
  }

  /** Cutting to the window, appending and cutting again keeps the same
      entries as appending everything and cutting once at the end. */
  lemma WindowAbsorbs(a: seq<Turn>, b: seq<Turn>)
    ensures Window(Window(a) + b) == Window(a + b)
  {
    var w := Window(a);
    if |a| > WINDOW {
      var n := |Window(a + b)|;
      assert |w + b| >= n;
      assert (a + b)[|a + b| - n..] == (w + b)[|w + b| - n..];
    }
  }

  /** The outcome of one chat round for one user. */
  datatype Exchanged = Exchanged(history: seq<Turn>, calls: seq<Request>, reply: Reply)

  /** One chat round once the user's turn is in place: `sent` is the history
      as stored at the moment of the call, and it is what the chat service
      receives. On success the reply is appended as an assistant turn and the
      history cut to the window; on failure the stored history stays `sent`
      and the user gets the generic apology. */
  function Exchange(sent: seq<Turn>, chat: seq<Turn> -> Call<string>): (e: Exchanged)
    ensures e.calls == [ChatRequest(sent)]
    ensures chat(sent).Ok? ==>
              && e.reply == Text(chat(sent).value)
              && e.history == Window(sent + [Turn(Assistant, chat(sent).value)])
              && 1 <= |e.history| <= WINDOW && |e.history| <= |sent| + 1
              && e.history[|e.history| - 1] == Turn(Assistant, chat(sent).value)
              && e.history[..|e.history| - 1] == sent[|sent| + 1 - |e.history|..]
              && (|sent| < WINDOW ==> |e.history| == |sent| + 1)
    ensures chat(sent).Err? ==> e.history == sent && e.reply == Text(CHAT_ERROR)
  {
    match chat(sent)
    case Ok(answer) =>
      var all := sent + [Turn(Assistant, answer)];
      var kept := Window(all);
      assert kept[..|kept| - 1] == sent[|sent| + 1 - |kept|..];
      Exchanged(kept, [ChatRequest(sent)], Text(answer))
    case Err =>
      Exchanged(sent, [ChatRequest(sent)], Text(CHAT_ERROR))
  }

  /** A successful round stores the last turn that was sent followed by the
      reply: with the user's turn last in `sent`, the history ends with the
      question and its answer. */
  lemma ExchangeKeepsLastTurn(sent: seq<Turn>, chat: seq<Turn> -> Call<string>)
    requires |sent| >= 1
    ensures var h := Exchange(sent, chat).history;
            chat(sent).Ok? ==>
              && |h| >= 2
              && h[|h| - 2..] == [sent[|sent| - 1], Turn(Assistant, chat(sent).value)]
  {
    var h := Exchange(sent, chat).history;
    if chat(sent).Ok? {
      assert h[|h| - 2] == sent[|sent| - 1];
      assert h[|h| - 2..] == [h[|h| - 2], h[|h| - 1]];
    }
  }
}

=== FILE: gateway.dfy ===
/** The boundary to the external services the bots call (chat completion,
    image generation). Every such call is an oracle: it either returns a
    value or fails, and the bots catch every failure. */
module Gateway {

  /** Outcome of one external call: the value it produced, or a failure of any kind
      (network error, provider error, malformed response). */
  datatype Call<+T> = Ok(value: T) | Err
}

=== FILE: mbot.dfy ===
/** mbot.py: the access-controlled chat bot. Every message first goes through
    the lazy-expiry access check; admitted messages are routed like bot.py's,
    but the chat branch trims the stored history to the size budget before
    the call. Invitation links are redeemed with `/start <link>`. */
module MBot {
  import opened Gateway
  import opened Conversation
  import opened Routing
  import opened AccessStore
  import opened Trimming

  const ACCESS_DENIED := "Извините, ваш доступ истек или не активирован."
  const WELCOME_OPENING := "Добро пожаловать, "
  const WELCOME_CLOSING := "! Ваш доступ активирован на 1 месяц."
  const LINK_REJECTED := "Извините, эта ссылка уже использована или недействительна."
  const START_USAGE := "Пожалуйста, используйте команду /start с уникальной ссылкой."

  /** The user table and the in-memory histories. */
  datatype State = State(store: Store, histories: Histories)

  /** What handling one update leaves behind. */
  datatype Outcome = Outcome(state: State, calls: seq<Request>, reply: Reply)

  /** `chat_with_gpt` for one user exactly as written: the user's turn is
      appended, the stored list is trimmed in place by `trim_chat_history`,
      and that trimmed list is both what is sent and what stays stored,
      whether or not the call succeeds. The oldest entry always goes out and
      the request is within budget unless it is down to that one entry. */
  function ChatAsWritten(prior: seq<Turn>, message: string, size: seq<Turn> -> nat,
                         chat: seq<Turn> -> Call<string>): (e: Exchanged)
    ensures var sent := Trimmed(prior + [Turn(User, message)], size);
            && e.calls == [ChatRequest(sent)]
            && |sent| >= 1
            && sent[0] == (prior + [Turn(User, message)])[0]
            && (size(sent) <= MAX_TOKENS || |sent| == 1)
            && (chat(sent).Err? ==> e.history == sent && e.reply == Text(CHAT_ERROR))
            && (chat(sent).Ok? ==>
                  && e.history == Window(sent + [Turn(Assistant, chat(sent).value)])
                  && 1 <= |e.history| <= WINDOW
                  && e.history[|e.history| - 1] == Turn(Assistant, chat(sent).value)
                  && e.reply == Text(chat(sent).value))
  {
    Exchange(Trimmed(prior + [Turn(User, message)], size), chat)
  }

  /** As written, a message can be lost: when the first stored entry alone is
      over budget, the trim removes the turn just appended, so the chat
      service never sees it and the stored history does not contain it. */
  lemma AsWrittenLosesMessage()
    ensures var size := (x: seq<Turn>) => 4001 * |x|;
            var chat := (x: seq<Turn>) => Ok("answer");
            var e := ChatAsWritten([Turn(User, "first")], "latest", size, chat);
            && e.calls == [ChatRequest([Turn(User, "first")])]
            && e.history == [Turn(User, "first"), Turn(Assistant, "answer")]
  {
    TrimDropsNewestEntry();
  }

  /** `chat_with_gpt` for one user with the trim that keeps the newest entry:
      the user's message is always the last turn sent, the request keeps the
      oldest entry and is within budget unless it is down to those two, and
      after a successful call the stored history ends with the question and
      its answer. On failure the trimmed list stays stored, as written. */
  function Chat(prior: seq<Turn>, message: string, size: seq<Turn> -> nat,
                chat: seq<Turn> -> Call<string>): (e: Exchanged)
    ensures var sent := TrimKeepingLatest(prior + [Turn(User, message)], size);
            && e.calls == [ChatRequest(sent)]
            && |sent| >= 1
            && sent[0] == (prior + [Turn(User, message)])[0]
            && sent[|sent| - 1] == Turn(User, message)
            && (size(sent) <= MAX_TOKENS || |sent| <= 2)
            && (chat(sent).Err? ==> e.history == sent && e.reply == Text(CHAT_ERROR))
            && (chat(sent).Ok? ==>
                  && e.history == Window(sent + [Turn(Assistant, chat(sent).value)])
                  && 2 <= |e.history| <= WINDOW
                  && e.history[|e.history| - 2..] == [Turn(User, message), Turn(Assistant, chat(sent).value)]
                  && e.reply == Text(chat(sent).value))
  {
    var sent := TrimKeepingLatest(prior + [Turn(User, message)], size);
    TrimKeepsMessage(prior, message, size);
    ExchangeAnswers(sent, message, chat);
    Exchange(sent, chat)
  }

  /** One chat round on a request that ends with the user's message: after a
      successful round the stored history ends with the question and its
      answer. */
  lemma ExchangeAnswers(sent: seq<Turn>, message: string, chat: seq<Turn> -> Call<string>)
    requires |sent| >= 1 && sent[|sent| - 1] == Turn(User, message)
    ensures var e := Exchange(sent, chat);
            chat(sent).Ok? ==>
              && 2 <= |e.history| <= WINDOW
              && e.history[|e.history| - 2..] == [Turn(User, message), Turn(Assistant, chat(sent).value)]
  {
    ExchangeKeepsLastTurn(sent, chat);
  }

  /** The corrected trim keeps the oldest entry first and the message last. */
  lemma TrimKeepsMessage(prior: seq<Turn>, message: string, size: seq<Turn> -> nat)
    ensures var h := prior + [Turn(User, message)];
            var sent := TrimKeepingLatest(h, size);
            && |sent| >= 1
            && sent[0] == h[0]
            && sent[|sent| - 1] == Turn(User, message)
  {
    var h := prior + [Turn(User, message)];
    var sent := TrimKeepingLatest(h, size);
    if |h| == 1 {
      assert KeepFrom(h, 1) == h;
    }
  }

  /** The two chat turns behave identically exactly when the user has no
      history yet or the trim as written keeps at least two entries; in every
      other case the written one drops the message from the request. */
  lemma ChatsAgreeUnlessDownToOne(prior: seq<Turn>, message: string, size: seq<Turn> -> nat,
                                  chat: seq<Turn> -> Call<string>)
    ensures Chat(prior, message, size, chat) == ChatAsWritten(prior, message, size, chat)
            <==> prior == [] || |Trimmed(prior + [Turn(User, message)], size)| >= 2
    ensures prior != [] && |Trimmed(prior + [Turn(User, message)], size)| < 2 ==>
              && ChatAsWritten(prior, message, size, chat).calls == [ChatRequest([prior[0]])]
              && Chat(prior, message, size, chat).calls == [ChatRequest([prior[0], Turn(User, message)])]
  {
    var h := prior + [Turn(User, message)];
    if |Trimmed(h, size)| >= 2 {
      TrimsAgreeAboveTwo(h, size);
    } else if prior == [] {
      assert KeepFrom(h, 1) == h;
    } else {
      TrimsDifferAtOne(h, size);
      assert h[0] == prior[0];
      assert Chat(prior, message, size, chat).calls != ChatAsWritten(prior, message, size, chat).calls;
    }
  }

  /** The facts about `handle_message` that hold whatever its chat branch
      does: the access check runs first and its revocation, if any, is kept.
      A refused user gets only the refusal, with no call and no history
      change. An admitted draw request takes the image branch, with its calls
      and its reply, and leaves the histories alone. */
  predicate Gated(st: State, uid: UserId, text: string, now: int,
                  draw: string -> Call<string>, o: Outcome) {
    var access := CheckAccess(st.store, uid, now);
    && o.state.store == access.1
    && (!access.0 ==>
          && o.calls == []
          && o.reply == Text(ACCESS_DENIED)
          && o.state.histories == st.histories)
    && (access.0 && IsDrawRequest(text) ==>
          && o.state.histories == st.histories
          && o.calls == (if ImagePrompt(text) == [] then [] else [ImageRequest(ImagePrompt(text))])
          && o.reply == GenerateImage(text, draw).reply)
  }

  /** The message reaches the chat branch: admitted and not a draw request. */
  predicate Chats(st: State, uid: UserId, text: string, now: int) {
    CheckAccess(st.store, uid, now).0 && !IsDrawRequest(text)
  }

  /** `handle_message` with the chat turn `reply` that `chat_with_gpt` would
      produce for this message; it is used on the chat branch only, where it
      supplies the calls, the reply and the user's new history, and no other
      user's history changes. */
  function Route(st: State, uid: UserId, text: string, now: int,
                 draw: string -> Call<string>, reply: Exchanged): (o: Outcome)
    ensures Gated(st, uid, text, now, draw, o)
    ensures Chats(st, uid, text, now) ==>
              && o.calls == reply.calls
              && o.reply == reply.reply
              && o.state.histories.Keys == st.histories.Keys + {uid}
              && o.state.histories[uid] == reply.history
              && forall u :: u in st.histories && u != uid ==> o.state.histories[u] == st.histories[u]
  {
    var access := CheckAccess(st.store, uid, now);
    if !access.0 then
      Outcome(State(access.1, st.histories), [], Text(ACCESS_DENIED))
    else if IsDrawRequest(text) then
      var d := GenerateImage(text, draw);
      Outcome(State(access.1, st.histories), d.calls, d.reply)
    else
      Outcome(State(access.1, st.histories[uid := reply.history]), reply.calls, reply.reply)
  }

  /** The chat branch of `handle_message` for request `sent`: one chat call
      with it, the user's history replaced by what the chat turn stores, the
      answer or the apology as the reply, and no other user's history changed. */
  predicate ChatTurn(st: State, uid: UserId, sent: seq<Turn>, chat: seq<Turn> -> Call<string>, o: Outcome) {
    && o.calls == [ChatRequest(sent)]
    && o.state.histories.Keys == st.histories.Keys + {uid}
    && o.state.histories[uid] ==
         (if chat(sent).Ok? then Window(sent + [Turn(Assistant, chat(sent).value)]) else sent)
    && o.reply == (if chat(sent).Ok? then Text(chat(sent).value) else Text(CHAT_ERROR))
    && forall u :: u in st.histories && u != uid ==> o.state.histories[u] == st.histories[u]
  }

  /** Routing a chat message through one chat round with `sent` is a chat turn. */
  lemma RouteChats(st: State, uid: UserId, text: string, now: int,
                   draw: string -> Call<string>, sent: seq<Turn>, chat: seq<Turn> -> Call<string>)
    ensures Chats(st, uid, text, now) ==> ChatTurn(st, uid, sent, chat, Route(st, uid, text, now, draw, Exchange(sent, chat)))
  {
  }

  /** `handle_message` exactly as written: an admitted chat message sends the
      stored history plus the message, trimmed by the loop as written, and
      stores that trimmed list, with the answer and cut to ten on success. */
  function HandleMessageAsWritten(st: State, uid: UserId, text: string, now: int,
                                  size: seq<Turn> -> nat,
                                  chat: seq<Turn> -> Call<string>,
                                  draw: string -> Call<string>): (o: Outcome)
    ensures Gated(st, uid, text, now, draw, o)
    ensures Chats(st, uid, text, now) ==>
              ChatTurn(st, uid, Trimmed(Prior(st.histories, uid) + [Turn(User, text)], size), chat, o)
  {
    var sent := Trimmed(Prior(st.histories, uid) + [Turn(User, text)], size);
    RouteChats(st, uid, text, now, draw, sent, chat);
    Route(st, uid, text, now, draw, ChatAsWritten(Prior(st.histories, uid), text, size, chat))
  }

  /** `handle_message` with the corrected trim: an admitted chat message is a
      chat turn for that user only, whose request is the stored history plus
      the message, trimmed but always ending with the message itself. */
  function HandleMessage(st: State, uid: UserId, text: string, now: int,
                         size: seq<Turn> -> nat,
                         chat: seq<Turn> -> Call<string>,
                         draw: string -> Call<string>): (o: Outcome)
    ensures Gated(st, uid, text, now, draw, o)
    ensures Chats(st, uid, text, now) ==>
              var sent := TrimKeepingLatest(Prior(st.histories, uid) + [Turn(User, text)], size);
              && |sent| >= 1 && sent[|sent| - 1] == Turn(User, text)
              && ChatTurn(st, uid, sent, chat, o)
  {
    var sent := TrimKeepingLatest(Prior(st.histories, uid) + [Turn(User, text)], size);
    TrimKeepsMessage(Prior(st.histories, uid), text, size);
    RouteChats(st, uid, text, now, draw, sent, chat);
    Route(st, uid, text, now, draw, Chat(Prior(st.histories, uid), text, size, chat))
  }

  /** `start`: without an argument the user is told how to use the command;
      otherwise the first argument is redeemed as an invitation link. The
      redemption succeeds, adding a granted row stamped `now` and greeting
      the user by `mention`, exactly when neither the user nor the link has
      a row yet; otherwise nothing changes. No service is called and no
      history changes. */
  function Start(st: State, uid: UserId, mention: string, args: seq<string>, now: int): (o: Outcome)
    ensures o.calls == [] && o.state.histories == st.histories
    ensures args == [] ==> o.state == st && o.reply == Text(START_USAGE)
    ensures args != [] && (uid in st.store || LinkUsed(st.store, args[0])) ==>
              o.state == st && o.reply == Text(LINK_REJECTED)
    ensures args != [] && !(uid in st.store || LinkUsed(st.store, args[0])) ==>
              && o.state.store.Keys == st.store.Keys + {uid}
              && o.state.store[uid] == Row(args[0], true, now)
              && (forall u :: u in st.store ==> o.state.store[u] == st.store[u])
              && o.reply == Text(WELCOME_OPENING + mention + WELCOME_CLOSING)
  {
    if args == [] then
      Outcome(st, [], Text(START_USAGE))
    else
      var added := AddUser(st.store, uid, args[0], now);
      var reply := if added.0 then WELCOME_OPENING + mention + WELCOME_CLOSING else LINK_REJECTED;
      Outcome(State(added.1, st.histories), [], Text(reply))
  }

  /** What reaches the bot: the `/start` command with its arguments, or a
      text message that is not a command. */
  datatype Update =
    | StartCommand(uid: UserId, mention: string, args: seq<string>, at: int)
    | Message(uid: UserId, text: string, at: int)

  /** The handler registered for an update: `start` for the command,
      `handle_message` for a text message, either as written (`written`) or
      with the corrected trim. */
  function Handle(st: State, u: Update, written: bool, size: seq<Turn> -> nat,
                  chat: seq<Turn> -> Call<string>, draw: string -> Call<string>): Outcome
  {
    match u
    case StartCommand(uid, mention, args, at) => Start(st, uid, mention, args, at)
    case Message(uid, text, at) =>
      if written then HandleMessageAsWritten(st, uid, text, at, size, chat, draw)
      else HandleMessage(st, uid, text, at, size, chat, draw)
  }

  /** The final state and one outcome per update. */
  datatype Served = Served(state: State, outcomes: seq<Outcome>)

  /** The bot serving a sequence of updates, one after another, with the
      message handler as written or corrected. */
  function Serve(st: State, updates: seq<Update>, written: bool, size: seq<Turn> -> nat,
                 chat: seq<Turn> -> Call<string>, draw: string -> Call<string>): (r: Served)
    ensures |r.outcomes| == |updates|
    decreases |updates|
  {
    if updates == [] then Served(st, [])
    else
      var o := Handle(st, updates[0], written, size, chat, draw);
      var rest := Serve(o.state, updates[1..], written, size, chat, draw);
      Served(rest.state, [o] + rest.outcomes)
  }

  /** The table operation an update performs: `/start` with an argument
      redeems it, a message checks access, `/start` alone does nothing. */
  function TableOps(u: Update): seq<Op> {
    match u
    case StartCommand(uid, _, args, at) => if args == [] then [] else [Redeem(uid, args[0], at)]
    case Message(uid, _, at) => [Check(uid, at)]
  }

  function AllTableOps(updates: seq<Update>): seq<Op>
    decreases |updates|
  {
    if updates == [] then [] else TableOps(updates[0]) + AllTableOps(updates[1..])
  }

  /** One update changes the table only through its table operation. */
  lemma HandleFollowsTableOps(st: State, u: Update, written: bool, size: seq<Turn> -> nat,
                              chat: seq<Turn> -> Call<string>, draw: string -> Call<string>)
    ensures Handle(st, u, written, size, chat, draw).state.store == Run(st.store, TableOps(u))
  {
    match u
    case StartCommand(uid, _, args, at) =>
      if args != [] {
        assert Run(st.store, TableOps(u)) == Run(Apply(st.store, Redeem(uid, args[0], at)), []);
      }
    case Message(uid, _, at) =>
      assert Run(st.store, TableOps(u)) == Run(Apply(st.store, Check(uid, at)), []);
  }

  /** Serving updates changes the table exactly as the sequence of their
      table operations does, so every fact about `Run` holds for the bot. */
  lemma {:induction false} ServeFollowsTableOps(st: State, updates: seq<Update>, written: bool, size: seq<Turn> -> nat,
                                                chat: seq<Turn> -> Call<string>,
                                                draw: string -> Call<string>)
    ensures Serve(st, updates, written, size, chat, draw).state.store == Run(st.store, AllTableOps(updates))
    decreases |updates|
  {
    if updates != [] {
      var o := Handle(st, updates[0], written, size, chat, draw);
      HandleFollowsTableOps(st, updates[0], written, size, chat, draw);
      ServeFollowsTableOps(o.state, updates[1..], written, size, chat, draw);
      RunAppend(st.store, TableOps(updates[0]), AllTableOps(updates[1..]));
    }
  }

  /** No sequence of updates makes two users share an invitation link. */
  lemma ServeKeepsUniqueLinks(st: State, updates: seq<Update>, written: bool, size: seq<Turn> -> nat,
                              chat: seq<Turn> -> Call<string>, draw: string -> Call<string>)
    requires UniqueLinks(st.store)
    ensures UniqueLinks(Serve(st, updates, written, size, chat, draw).state.store)
  {
    ServeFollowsTableOps(st, updates, written, size, chat, draw);
    RunKeepsUniqueLinks(st.store, AllTableOps(updates));
  }

  /** A user whose grant is off stays shut out: whatever updates follow, from
      that user or anyone else, each of the user's messages is refused
      without any call into a service, and the grant stays off. */
  lemma {:induction false} RevokedUserStaysRefused(st: State, uid: UserId, updates: seq<Update>, written: bool,
                                                   size: seq<Turn> -> nat,
                                                   chat: seq<Turn> -> Call<string>,
                                                   draw: string -> Call<string>)
    requires uid in st.store && !st.store[uid].granted
    ensures var r := Serve(st, updates, written, size, chat, draw);
            && uid in r.state.store && !r.state.store[uid].granted
            && forall i :: 0 <= i < |updates| && updates[i].Message? && updates[i].uid == uid ==>
                 r.outcomes[i].calls == [] && r.outcomes[i].reply == Text(ACCESS_DENIED)
    decreases |updates|
  {
    if updates != [] {
      var o := Handle(st, updates[0], written, size, chat, draw);
      HandleFollowsTableOps(st, updates[0], written, size, chat, draw);
      RunKeepsRows(st.store, TableOps(updates[0]), uid);
      RevokedUserStaysRefused(o.state, uid, updates[1..], written, size, chat, draw);
      var rest := Serve(o.state, updates[1..], written, size, chat, draw);
      var r := Serve(st, updates, written, size, chat, draw);
      assert r.outcomes == [o] + rest.outcomes;
      forall i | 0 <= i < |updates| && updates[i].Message? && updates[i].uid == uid
        ensures r.outcomes[i].calls == [] && r.outcomes[i].reply == Text(ACCESS_DENIED)
      {
        if i > 0 {
          assert updates[i] == updates[1..][i - 1];
        } else {
          RevokedMessageRefused(st, updates[0], written, size, chat, draw);
        }
      }
    }
  }

  /** A message from a user whose grant is off is refused without a call. */
  lemma RevokedMessageRefused(st: State, u: Update, written: bool, size: seq<Turn> -> nat,
                              chat: seq<Turn> -> Call<string>, draw: string -> Call<string>)
    requires u.Message? && u.uid in st.store && !st.store[u.uid].granted
    ensures Handle(st, u, written, size, chat, draw).calls == []
    ensures Handle(st, u, written, size, chat, draw).reply == Text(ACCESS_DENIED)
  {
  }
}

=== FILE: routing.dfy ===
/** How a chat bot decides between image generation and chat, and the image
    branch itself up to the call into the image service (bot.py and mbot.py
    share this logic). */
module Routing {
  import opened Gateway
  import opened Text
  import opened Conversation

  /** The word that asks for a picture ("draw"). */
  const DRAW_TRIGGER := "нарисуй"

  /** The number of characters cut off the front of a draw request (`text[7:]`). */
  const PREFIX_LENGTH := 7

  const PROMPT_MISSING := "Пожалуйста, укажите, что нарисовать после слова 'нарисуй'."
  const IMAGE_ERROR := "Извините, произошла ошибка при генерации изображения."
  const CAPTION_PREFIX := "Вот изображение по запросу: "

  /** `message.lower().startswith("нарисуй")`, read character by character:
      a message is a draw request exactly when it has at least seven
      characters and each of the first seven lowercases to the matching
      letter of the trigger. Upper- and mixed-case spellings of the trigger
      therefore route to the image branch as well. */
  function IsDrawRequest(text: string): (b: bool)
    ensures b <==>
              && |text| >= PREFIX_LENGTH
              && forall i :: 0 <= i < PREFIX_LENGTH ==> LowerChar(text[i]) == DRAW_TRIGGER[i]
  {
    StartsWith(Lower(text), DRAW_TRIGGER)
  }

  /** `text[7:].strip()` (Python slicing gives "" when the text is shorter):
      a slice of the text after the seven-character trigger, with only
      whitespace cut off around it, itself neither starting nor ending with
      whitespace. It is empty exactly when nothing but whitespace follows the
      trigger. */
  function ImagePrompt(text: string): (p: string)
    ensures p == [] <==> |text| <= PREFIX_LENGTH || AllSpace(text[PREFIX_LENGTH..])
    ensures p == [] || (!IsSpace(p[0]) && !IsSpace(p[|p| - 1]))
    ensures |text| > PREFIX_LENGTH ==>
              var rest := text[PREFIX_LENGTH..];
              exists i :: && 0 <= i <= |rest| - |p|
                          && p == rest[i..i + |p|]
                          && AllSpace(rest[..i])
                          && AllSpace(rest[i + |p|..])
  {
    if |text| <= PREFIX_LENGTH then [] else Strip(text[PREFIX_LENGTH..])
  }

  /** The contract of `ImagePrompt` fixes the prompt: on a text longer than
      the trigger, any string that meets it is the prompt `text[7:].strip()`. */
  lemma ImagePromptUnique(text: string, q: string)
    requires |text| > PREFIX_LENGTH
    requires q == [] <==> AllSpace(text[PREFIX_LENGTH..])
    requires q == [] || (!IsSpace(q[0]) && !IsSpace(q[|q| - 1]))
    requires var rest := text[PREFIX_LENGTH..];
             exists i :: && 0 <= i <= |rest| - |q|
                         && q == rest[i..i + |q|]
                         && AllSpace(rest[..i])
                         && AllSpace(rest[i + |q|..])
    ensures q == ImagePrompt(text)
  {
    var rest := text[PREFIX_LENGTH..];
    var i :| && 0 <= i <= |rest| - |q|
             && q == rest[i..i + |q|]
             && AllSpace(rest[..i])
             && AllSpace(rest[i + |q|..]);
    SliceFrame(rest, q, i);
    StripUnique(rest, q, i);
  }

  /** The outcome of the image branch. */
  datatype Drawn = Drawn(calls: seq<Request>, reply: Reply)

  /** `generate_image`: an empty prompt is answered with a validation message
      and no call; otherwise the image service is called once with the prompt,
      and the user gets the picture captioned with the prompt, or the image
      apology when the call fails. */
  function GenerateImage(text: string, draw: string -> Call<string>): (d: Drawn)
    ensures var p := ImagePrompt(text);
            && (d.calls == [] <==> p == [])
            && (p == [] ==> d.reply == Text(PROMPT_MISSING))
            && (p != [] ==> d.calls == [ImageRequest(p)])
            && (p != [] && draw(p).Ok? ==> d.reply == Photo(draw(p).value, CAPTION_PREFIX + p))
            && (p != [] && draw(p).Err? ==> d.reply == Text(IMAGE_ERROR))
  {
    var prompt := ImagePrompt(text);
    if prompt == [] then
      Drawn([], Text(PROMPT_MISSING))
    else
      match draw(prompt)
      case Ok(url) => Drawn([ImageRequest(prompt)], Photo(url, CAPTION_PREFIX + prompt))
      case Err => Drawn([ImageRequest(prompt)], Text(IMAGE_ERROR))
  }
}

=== FILE: sokratkant.dfy ===
/** sokratkantbot.py: every text message is a topic; the bot resets its one
    history to a system prompt about the topic and then lets the chat service
    speak as Socrates and Kant in turn for a fixed number of rounds. */
module SokratKant {
  import opened Gateway
  import opened Text
  import opened Conversation

  /** Rounds per dialogue; each round is one Socrates and one Kant turn. */
  const MAX_EXCHANGES := 5

  /** The two speakers of a dialogue. */
  datatype Philosopher = Socrates | Kant

  /** The name under which a philosopher speaks and is addressed. */
  function Name(p: Philosopher): string {
    match p
    case Socrates => "Сократ"
    case Kant => "Кант"
  }

  const TOPIC_ANNOUNCEMENT := "Начинаем диалог на тему: "
  const DIALOGUE_DONE := "Диалог завершен. Если хотите начать новый, просто отправьте новую тему."

  function SystemPrompt(topic: string): string {
    "Вы участвуете в философском диалоге между Сократом и Кантом на тему '" + topic + "'. Сократ начинает диалог."
  }

  /** The user instruction appended to each request, naming the philosopher. */
  function Instruction(philosopher: string): string {
    "Теперь ты " + philosopher + ". Ответь в своем философском стиле, продолжая диалог."
  }

  /** The text used in place of a reply when the chat call fails. */
  function Fallback(philosopher: string): string {
    "Извините, произошла ошибка при генерации ответа для " + philosopher + "."
  }

  /** Who speaks the `i`-th turn of a dialogue: Socrates first, then alternately. */
  function Speaker(i: nat): Philosopher {
    if i % 2 == 0 then Socrates else Kant
  }

  /** In every round Socrates speaks first and Kant second. */
  lemma SpeakersOfRound(round: nat)
    ensures Speaker(2 * round) == Socrates && Speaker(2 * round + 1) == Kant
  {
  }

  /** `a + b + c` contains `b`. */
  lemma ContainsMiddle(a: string, b: string, c: string)
    ensures Contains(a + b + c, b)
  {
    var s := a + b + c;
    assert s[|a|..][..|b|] == b;
  }

  /** The history sent for one philosopher's turn: the current history,
      unchanged, followed by one user instruction that names the philosopher. */
  function PhilosopherRequest(philosopher: Philosopher, history: seq<Turn>): (req: seq<Turn>)
    ensures |req| == |history| + 1
    ensures req[..|history|] == history
    ensures req[|history|].role == User && Contains(req[|history|].content, Name(philosopher))
  {
    ContainsMiddle("Теперь ты ", Name(philosopher), ". Ответь в своем философском стиле, продолжая диалог.");
    history + [Turn(User, Instruction(Name(philosopher)))]
  }

  /** `generate_philosopher_message`: never fails. A reply comes back with
      surrounding whitespace stripped; a failed call yields the fallback,
      which names the philosopher. */
  function PhilosopherMessage(philosopher: Philosopher, history: seq<Turn>,
                              ai: seq<Turn> -> Call<string>): (m: string)
    ensures var answer := ai(PhilosopherRequest(philosopher, history));
            && (answer.Ok? ==> m == Strip(answer.value) && Contains(answer.value, m))
            && (answer.Err? ==> m == Fallback(Name(philosopher)) && Contains(m, Name(philosopher)))
  {
    match ai(PhilosopherRequest(philosopher, history))
    case Ok(text) =>
      StripOccursInText(text);
      Strip(text)
    case Err =>
      ContainsMiddle("Извините, произошла ошибка при генерации ответа для ", Name(philosopher), ".");
      Fallback(Name(philosopher))
  }

  /** `t` is an assistant entry that speaks as `philosopher`: its content
      starts with the philosopher's name and a colon. */
  predicate SpokenBy(t: Turn, philosopher: Philosopher) {
    t.role == Assistant && StartsWith(t.content, Name(philosopher) + ": ")
  }

  /** The entry stored for one philosopher's turn, given the history before it:
      the reply prefixed with the speaker's name, as shown to the user, so
      every spoken entry names its speaker. */
  function Spoken(philosopher: Philosopher, history: seq<Turn>, ai: seq<Turn> -> Call<string>): (t: Turn)
    ensures SpokenBy(t, philosopher)
    ensures t.content[|Name(philosopher)| + 2..] == PhilosopherMessage(philosopher, history, ai)
  {
    var prefix := Name(philosopher) + ": ";
    var t := Turn(Assistant, prefix + PhilosopherMessage(philosopher, history, ai));
    assert t.content[..|prefix|] == prefix;
    assert t.content[|prefix|..] == PhilosopherMessage(philosopher, history, ai);
    t
  }

  /** The first `n` turns of a dialogue started on `history` are in place:
      `h` is `history` followed by `n` spoken turns, each the reply of its
      speaker to the request built from the history just before it, and each
      also shown to the user. */
  ghost predicate Transcript(history: seq<Turn>, h: seq<Turn>, requests: seq<seq<Turn>>,
                             replies: seq<string>, n: nat, ai: seq<Turn> -> Call<string>)
  {
    && |h| == |history| + n
    && h[..|history|] == history
    && |requests| == n && |replies| == n
    && forall i :: 0 <= i < n ==> TurnInPlace(history, h, requests, replies, i, ai)
  }

  ghost predicate TurnInPlace(history: seq<Turn>, h: seq<Turn>, requests: seq<seq<Turn>>,
                              replies: seq<string>, i: nat, ai: seq<Turn> -> Call<string>)
    requires |history| + i < |h| && i < |requests| && i < |replies|
  {
    && requests[i] == PhilosopherRequest(Speaker(i), h[..|history| + i])
    && h[|history| + i] == Spoken(Speaker(i), h[..|history| + i], ai)
    && replies[i] == h[|history| + i].content
  }

  /** A turn in place stays in place when anything is appended after it. */
  lemma KeepTurn(history: seq<Turn>, h: seq<Turn>, requests: seq<seq<Turn>>,
                 replies: seq<string>, i: nat, ai: seq<Turn> -> Call<string>,
                 t: Turn, request: seq<Turn>, reply: string)
    requires |history| + i < |h| && i < |requests| && i < |replies|
    requires TurnInPlace(history, h, requests, replies, i, ai)
    ensures TurnInPlace(history, h + [t], requests + [request], replies + [reply], i, ai)
  {
    assert (h + [t])[..|history| + i] == h[..|history| + i];
  }

  /** The turn spoken next, appended to a history of the right length, is in place. */
  lemma NextTurn(history: seq<Turn>, h: seq<Turn>, requests: seq<seq<Turn>>,
                 replies: seq<string>, n: nat, ai: seq<Turn> -> Call<string>)
    requires |h| == |history| + n && |requests| == n && |replies| == n
    ensures var t := Spoken(Speaker(n), h, ai);
            TurnInPlace(history, h + [t], requests + [PhilosopherRequest(Speaker(n), h)],
                        replies + [t.content], n, ai)
  {
    var t := Spoken(Speaker(n), h, ai);
    assert (h + [t])[..|history| + n] == h;
  }

  /** One more turn, by the next speaker, keeps the transcript in place. */
  lemma Speak(history: seq<Turn>, h: seq<Turn>, requests: seq<seq<Turn>>,
              replies: seq<string>, n: nat, ai: seq<Turn> -> Call<string>)
    requires Transcript(history, h, requests, replies, n, ai)
    ensures var t := Spoken(Speaker(n), h, ai);
            Transcript(history, h + [t], requests + [PhilosopherRequest(Speaker(n), h)],
                       replies + [t.content], n + 1, ai)
  {
    var t := Spoken(Speaker(n), h, ai);
    var request := PhilosopherRequest(Speaker(n), h);
    assert (h + [t])[..|history|] == h[..|history|];
    forall i | 0 <= i < n + 1
      ensures TurnInPlace(history, h + [t], requests + [request], replies + [t.content], i, ai)
    {
      if i < n {
        KeepTurn(history, h, requests, replies, i, ai, t, request, t.content);
      } else {
        NextTurn(history, h, requests, replies, n, ai);
      }
    }
  }

  /** One round of the loop: Socrates speaks, then Kant answers. */
  method Round(ghost history: seq<Turn>, h: seq<Turn>, requests: seq<seq<Turn>>,
               replies: seq<string>, ghost round: nat, ai: seq<Turn> -> Call<string>)
    returns (h': seq<Turn>, requests': seq<seq<Turn>>, replies': seq<string>)
    requires Transcript(history, h, requests, replies, 2 * round, ai)
    ensures Transcript(history, h', requests', replies', 2 * round + 2, ai)
  {
    SpeakersOfRound(round);
    Speak(history, h, requests, replies, 2 * round, ai);
    var socrates := Spoken(Socrates, h, ai);
    h', requests', replies' := h + [socrates], requests + [PhilosopherRequest(Socrates, h)],
                               replies + [socrates.content];

    Speak(history, h', requests', replies', 2 * round + 1, ai);
    var kant := Spoken(Kant, h', ai);
    h', requests', replies' := h' + [kant], requests' + [PhilosopherRequest(Kant, h')],
                               replies' + [kant.content];
  }

  /** A finished transcript, followed by the closing message, spelt out turn by turn. */
  lemma CloseDialogue(history: seq<Turn>, h: seq<Turn>, requests: seq<seq<Turn>>,
                      spoken: seq<string>, ai: seq<Turn> -> Call<string>)
    requires Transcript(history, h, requests, spoken, 2 * MAX_EXCHANGES, ai)
    ensures var replies := spoken + [DIALOGUE_DONE];
            forall i {:trigger requests[i]} :: 0 <= i < 2 * MAX_EXCHANGES ==>
              && requests[i] == PhilosopherRequest(Speaker(i), h[..|history| + i])
              && h[|history| + i] == Spoken(Speaker(i), h[..|history| + i], ai)
              && replies[i] == h[|history| + i].content
    ensures forall i :: 0 <= i < 2 * MAX_EXCHANGES ==> SpokenBy(h[|history| + i], Speaker(i))
  {
    var replies := spoken + [DIALOGUE_DONE];
    forall i | 0 <= i < 2 * MAX_EXCHANGES
      ensures && requests[i] == PhilosopherRequest(Speaker(i), h[..|history| + i])
              && h[|history| + i] == Spoken(Speaker(i), h[..|history| + i], ai)
              && replies[i] == h[|history| + i].content
    {
      assert TurnInPlace(history, h, requests, spoken, i, ai);
      assert replies[i] == spoken[i];
    }
    forall i | 0 <= i < 2 * MAX_EXCHANGES
      ensures SpokenBy(h[|history| + i], Speaker(i))
    {
      assert TurnInPlace(history, h, requests, spoken, i, ai);
    }
  }

  /** `generate_dialogue`: appends exactly two entries per round to the
      history, never touching what was there. The `i`-th new entry is the
      reply of the `i`-th speaker to the request built from the history just
      before it, and it is also the `i`-th message shown to the user, so the
      new entries are assistant turns whose speakers alternate, Socrates
      first; a closing message follows. */
  method GenerateDialogue(history: seq<Turn>, ai: seq<Turn> -> Call<string>)
    returns (h: seq<Turn>, requests: seq<seq<Turn>>, replies: seq<string>)
    ensures |h| == |history| + 2 * MAX_EXCHANGES
    ensures h[..|history|] == history
    ensures |requests| == 2 * MAX_EXCHANGES
    ensures |replies| == 2 * MAX_EXCHANGES + 1
    ensures forall i :: 0 <= i < 2 * MAX_EXCHANGES ==> TurnInPlace(history, h, requests, replies, i, ai)
    ensures forall i :: 0 <= i < 2 * MAX_EXCHANGES ==> SpokenBy(h[|history| + i], Speaker(i))
    ensures replies[2 * MAX_EXCHANGES] == DIALOGUE_DONE
  {
    h, requests, replies := history, [], [];
    var round := 0;
    assert h[..|history|] == history;
    while round < MAX_EXCHANGES
      invariant 0 <= round <= MAX_EXCHANGES
      invariant Transcript(history, h, requests, replies, 2 * round, ai)
    {
      h, requests, replies := Round(history, h, requests, replies, round, ai);
      round := round + 1;
    }
    CloseDialogue(history, h, requests, replies, ai);
    ghost var spoken := replies;
    replies := replies + [DIALOGUE_DONE];
    forall i | 0 <= i < 2 * MAX_EXCHANGES
      ensures TurnInPlace(history, h, requests, replies, i, ai)
    {
      assert TurnInPlace(history, h, requests, spoken, i, ai);
      assert replies[i] == spoken[i];
    }
  }

  lemma SystemPromptNamesTopic(topic: string)
    ensures Contains(SystemPrompt(topic), topic)
  {
    ContainsMiddle("Вы участвуете в философском диалоге между Сократом и Кантом на тему '", topic,
                   "'. Сократ начинает диалог.");
  }

  /** `handle_topic`: announces the topic, replaces the history with a single
      system entry about it, and runs the dialogue. The transcript ends with
      eleven entries: the system entry first, then assistant entries whose
      speakers alternate starting with Socrates. The first request is the
      system entry and Socrates' instruction. */
  method HandleTopic(topic: string, ai: seq<Turn> -> Call<string>)
    returns (h: seq<Turn>, requests: seq<seq<Turn>>, replies: seq<string>)
    ensures |h| == 1 + 2 * MAX_EXCHANGES
    ensures h[0] == Turn(System, SystemPrompt(topic)) && Contains(h[0].content, topic)
    ensures forall j :: 0 <= j < 2 * MAX_EXCHANGES ==> SpokenBy(h[1 + j], Speaker(j))
    ensures |requests| == 2 * MAX_EXCHANGES
    ensures requests[0] == [h[0], Turn(User, Instruction(Name(Socrates)))]
    ensures |replies| == 2 * MAX_EXCHANGES + 2
    ensures replies[0] == TOPIC_ANNOUNCEMENT + topic
    ensures replies[|replies| - 1] == DIALOGUE_DONE
  {
    var start := [Turn(System, SystemPrompt(topic))];
    SystemPromptNamesTopic(topic);
    var said;
    h, requests, said := GenerateDialogue(start, ai);
    replies := [TOPIC_ANNOUNCEMENT + topic] + said;
    assert h[..1] == start;
    assert h[0] == start[0];
    assert TurnInPlace(start, h, requests, said, 0, ai);
    assert requests[0] == PhilosopherRequest(Socrates, start);
    assert replies[|replies| - 1] == said[|said| - 1];
  }
}

=== FILE: text.dfy ===
/** The few Python string operations the bots rely on: `str.isspace`,
    `str.strip`, `str.lower` and `str.startswith`. */
module Text {

  /** Python's `str.isspace` for one character: the ASCII controls TAB..CR,
      the four information separators, and the Unicode space separators. */
  predicate IsSpace(c: char) {
    var n := c as int;
    || n == 0x20
    || 0x09 <= n <= 0x0D
    || 0x1C <= n <= 0x1F
    || n == 0x85
    || n == 0xA0
    || n == 0x1680
    || 0x2000 <= n <= 0x200A
    || n == 0x2028
    || n == 0x2029
    || n == 0x202F
    || n == 0x205F
    || n == 0x3000
  }

  predicate AllSpace(s: string) {
    forall k :: 0 <= k < |s| ==> IsSpace(s[k])
  }

  /** Number of whitespace characters `str.lstrip()` removes from the front. */
  function Leading(s: string): (n: nat)
    ensures n <= |s|
    ensures forall k :: 0 <= k < n ==> IsSpace(s[k])
    ensures n < |s| ==> !IsSpace(s[n])
    decreases |s|
  {
    if s != [] && IsSpace(s[0]) then 1 + Leading(s[1..]) else 0
  }

  /** Number of whitespace characters `str.rstrip()` removes from the back. */
  function Trailing(s: string): (n: nat)
    ensures n <= |s|
    ensures forall k :: |s| - n <= k < |s| ==> IsSpace(s[k])
    ensures n < |s| ==> !IsSpace(s[|s| - n - 1])
    decreases |s|
  {
    if s != [] && IsSpace(s[|s| - 1]) then 1 + Trailing(s[..|s| - 1]) else 0
  }

  /** Python's `str.strip()`: the longest slice of `s` that neither starts nor
      ends with whitespace, everything cut off around it being whitespace. */
  function Strip(s: string): (r: string)
    ensures |r| <= |s|
    ensures r == [] || (!IsSpace(r[0]) && !IsSpace(r[|r| - 1]))
    ensures r == [] <==> AllSpace(s)
    ensures exists i :: 0 <= i <= |s| - |r| && r == s[i..i + |r|]
                        && AllSpace(s[..i]) && AllSpace(s[i + |r|..])
  {
    var a := Leading(s);
    if a == |s| then
      assert s[..a] == s;
      assert s[a..] == [];
      []
    else
      var b := |s| - Trailing(s);
      assert a < b;
      assert !AllSpace(s) by {
        assert !IsSpace(s[a]);
      }
      assert AllSpace(s[..a]);
      assert AllSpace(s[b..]);
      s[a..b]
  }

  /** The contract of `Strip` has one solution: a slice `q == s[i..i + |q|]`
      with only whitespace around it, neither starting nor ending with
      whitespace, is `Strip(s)`. The blank text is the case `q == []`. */
  lemma StripUnique(s: string, q: string, i: nat)
    requires i + |q| <= |s| && q == s[i..i + |q|]
    requires forall k :: 0 <= k < i ==> IsSpace(s[k])
    requires forall k :: i + |q| <= k < |s| ==> IsSpace(s[k])
    requires q == [] || (!IsSpace(q[0]) && !IsSpace(q[|q| - 1]))
    ensures q == Strip(s)
  {
    var r := Strip(s);
    if q != [] {
      assert s[i] == q[0] && s[i + |q| - 1] == q[|q| - 1];
      assert Framed(s, i, i + |q|);
      var j := StripIndex(s);
      SameTrimmedSlice(s, i, i + |q|, j, j + |r|);
      SameSlice(s, i, i + |q|, j, j + |r|, q, r);
    }
  }

  /** `s[i..e]` is non-empty, has non-whitespace ends and only whitespace
      around it. */
  ghost predicate Framed(s: string, i: nat, e: nat) {
    && i < e <= |s|
    && !IsSpace(s[i]) && !IsSpace(s[e - 1])
    && (forall k :: 0 <= k < i ==> IsSpace(s[k]))
    && (forall k :: e <= k < |s| ==> IsSpace(s[k]))
  }

  /** Where `Strip(s)` sits in a text that is not blank. */
  lemma StripIndex(s: string) returns (j: nat)
    requires !AllSpace(s)
    ensures j + |Strip(s)| <= |s| && Strip(s) == s[j..j + |Strip(s)|]
    ensures Framed(s, j, j + |Strip(s)|)
  {
    var r := Strip(s);
    j :| 0 <= j <= |s| - |r| && r == s[j..j + |r|]
         && AllSpace(s[..j]) && AllSpace(s[j + |r|..]);
    assert s[j] == r[0] && s[j + |r| - 1] == r[|r| - 1];
    SliceFrame(s, r, j);
  }

  /** Whitespace around a slice, stated position by position. */
  lemma SliceFrame(s: string, q: string, i: nat)
    requires i + |q| <= |s| && q == s[i..i + |q|]
    requires AllSpace(s[..i]) && AllSpace(s[i + |q|..])
    ensures forall k :: 0 <= k < i ==> IsSpace(s[k])
    ensures forall k :: i + |q| <= k < |s| ==> IsSpace(s[k])
  {
    forall k | 0 <= k < i
      ensures IsSpace(s[k])
    {
      assert s[..i][k] == s[k];
    }
    forall k | i + |q| <= k < |s|
      ensures IsSpace(s[k])
    {
      assert s[i + |q|..][k - i - |q|] == s[k];
    }
  }

  /** Two framed slices of the same text are the same slice. */
  lemma SameTrimmedSlice(s: string, i: nat, e: nat, i': nat, e': nat)
    requires Framed(s, i, e) && Framed(s, i', e')
    ensures i == i' && e == e'
  {
  }

  /** Two names for the same slice are the same string. */
  lemma SameSlice(s: string, i: nat, e: nat, i': nat, e': nat, q: string, r: string)
    requires i <= e <= |s| && i == i' && e == e'
    requires q == s[i..e] && r == s[i'..e']
    ensures q == r
  {
  }

  /** The stripped text occurs in the original. */
  lemma StripOccursInText(s: string)
    ensures Contains(s, Strip(s))
  {
    var p := Strip(s);
    var i :| 0 <= i <= |s| - |p| && p == s[i..i + |p|]
             && AllSpace(s[..i]) && AllSpace(s[i + |p|..]);
    assert s[i..][..|p|] == s[i..i + |p|];
  }

  /** One character of Python's `str.lower()`, for the scripts the bots read:
      ASCII A-Z and the Cyrillic capitals (including Ё and the other
      U+0400..U+040F letters). Every other character maps to itself. */
  function LowerChar(c: char): char {
    var n := c as int;
    if 0x41 <= n <= 0x5A || 0x410 <= n <= 0x42F then (n + 0x20) as char
    else if 0x400 <= n <= 0x40F then (n + 0x50) as char
    else c
  }

  /** Python's `str.lower()` as a length-preserving map of `LowerChar`. */
  function Lower(s: string): (r: string)
    ensures |r| == |s|
    ensures forall i :: 0 <= i < |s| ==> r[i] == LowerChar(s[i])
  {
    if s == [] then [] else [LowerChar(s[0])] + Lower(s[1..])
  }

  /** Python's `s.startswith(p)`. */
  predicate StartsWith(s: string, p: string) {
    |p| <= |s| && s[..|p|] == p
  }

  /** `t` occurs somewhere inside `s` (Python's `t in s`). */
  predicate Contains(s: string, t: string) {
    exists i :: 0 <= i <= |s| && StartsWith(s[i..], t)
  }
}

=== FILE: trimming.dfy ===
/** `trim_chat_history` of mbot.py: while the serialized history is over
    budget, remove the entry at index 1, so that the first entry is always
    kept. The serialized size (`len(str(history))`) is a parameter `size`. */
module Trimming {
  import opened Conversation

  /** The serialized-size budget `MAX_TOKENS`. */
  const MAX_TOKENS := 4000

  /** The history with the entries at indexes 1..k-1 removed: the first entry
      followed by the suffix of the rest that starts at index `k`. */
  function KeepFrom(h: seq<Turn>, k: nat): seq<Turn>
    requires 1 <= k <= |h|
  {
    [h[0]] + h[k..]
  }

  /** Removing index 1 from a history already cut at `k` cuts it at `k + 1`. */
  lemma KeepFromShift(h: seq<Turn>, k: nat)
    requires 1 <= k < |h|
    ensures KeepFrom(KeepFrom(h, 2), k) == KeepFrom(h, k + 1)
  {
    assert KeepFrom(h, 2)[k..] == h[k + 1..];
  }

  /** The loop as written, one `pop(1)` per step: it stops when the history is
      within budget or has at most one entry. */
  function Trimmed(h: seq<Turn>, size: seq<Turn> -> nat): (r: seq<Turn>)
    ensures |r| <= |h|
    ensures |h| == 0 ==> r == []
    ensures |h| > 0 ==> |r| > 0 && r == KeepFrom(h, |h| - |r| + 1)
    ensures size(r) <= MAX_TOKENS || |r| <= 1
    decreases |h|
  {
    if size(h) > MAX_TOKENS && |h| > 1 then
      var r := Trimmed(KeepFrom(h, 2), size);
      KeepFromShift(h, |h| - |r|);
      r
    else h
  }

  /** The trim removes no more than it must: every longer candidate of the
      same shape was still over budget. With the shape `Trimmed` promises this
      determines its result. */
  lemma {:induction false} TrimmedIsMinimal(h: seq<Turn>, size: seq<Turn> -> nat, k: nat)
    requires 1 <= k < |h| - |Trimmed(h, size)| + 1
    ensures size(KeepFrom(h, k)) > MAX_TOKENS
    decreases |h|
  {
    assert size(h) > MAX_TOKENS && |h| > 1;
    if k == 1 {
      assert KeepFrom(h, 1) == h;
    } else {
      var h' := KeepFrom(h, 2);
      assert Trimmed(h, size) == Trimmed(h', size);
      KeepFromShift(h, k - 1);
      TrimmedIsMinimal(h', size, k - 1);
    }
  }

  /** Where the loop of `trim_chat_history` stands: `r` is `h` cut from the
      front, keeping the first entry, every cut so far dropped an entry of an
      over-budget history, and finishing from `r` gives the same as from `h`. */
  ghost predicate TrimInProgress(h: seq<Turn>, r: seq<Turn>, size: seq<Turn> -> nat) {
    && |r| <= |h|
    && (|h| == 0 ==> r == [])
    && (|h| > 0 ==> |r| > 0 && r == KeepFrom(h, |h| - |r| + 1))
    && Trimmed(r, size) == Trimmed(h, size)
    && forall k :: 1 <= k < |h| - |r| + 1 ==> size(KeepFrom(h, k)) > MAX_TOKENS
  }

  /** One `pop(1)` of the loop keeps it in progress. */
  lemma PopStep(h: seq<Turn>, r: seq<Turn>, size: seq<Turn> -> nat)
    requires TrimInProgress(h, r, size)
    requires 1 < |r| && size(r) > MAX_TOKENS
    ensures TrimInProgress(h, KeepFrom(r, 2), size)
  {
    var j := |h| - |r| + 1;
    KeepFromShift(h, j);
    assert Trimmed(r, size) == Trimmed(KeepFrom(r, 2), size);
    forall k | 1 <= k < j + 1
      ensures size(KeepFrom(h, k)) > MAX_TOKENS
    {
      if k == j {
        assert KeepFrom(h, k) == r;
      }
    }
  }

  /** When the loop stops, it has computed the trim. */
  lemma PopsDone(h: seq<Turn>, r: seq<Turn>, size: seq<Turn> -> nat)
    requires TrimInProgress(h, r, size)
    requires size(r) <= MAX_TOKENS || |r| <= 1
    ensures r == Trimmed(h, size)
    ensures |h| == 0 ==> r == []
    ensures |h| > 0 ==> |r| > 0 && r == KeepFrom(h, |h| - |r| + 1)
    ensures forall k :: 1 <= k < |h| - |r| + 1 ==> size(KeepFrom(h, k)) > MAX_TOKENS
  {
    assert Trimmed(r, size) == r;
  }

  /** `trim_chat_history` as the loop it is. */
  method TrimChatHistory(h: seq<Turn>, size: seq<Turn> -> nat) returns (r: seq<Turn>)
    ensures r == Trimmed(h, size)
    ensures |h| == 0 ==> r == []
    ensures |h| > 0 ==> |r| > 0 && r == KeepFrom(h, |h| - |r| + 1)
    ensures size(r) <= MAX_TOKENS || |r| <= 1
    ensures forall k :: 1 <= k < |h| - |r| + 1 ==> size(KeepFrom(h, k)) > MAX_TOKENS
  {
    r := h;
    assert |h| > 0 ==> h == KeepFrom(h, 1);
    while size(r) > MAX_TOKENS
      invariant TrimInProgress(h, r, size)
      decreases |r|
    {
      if |r| > 1 {
        PopStep(h, r, size);
        r := KeepFrom(r, 2);
      } else {
        break;
      }
    }
    PopsDone(h, r, size);
  }

  /** The trim that keeps the newest entry as well as the oldest: it stops at
      two entries instead of one. */
  function TrimKeepingLatest(h: seq<Turn>, size: seq<Turn> -> nat): (r: seq<Turn>)
    ensures |r| <= |h|
    ensures |h| == 0 ==> r == []
    ensures |h| > 0 ==> |r| > 0 && r == KeepFrom(h, |h| - |r| + 1)
    ensures |h| >= 2 ==> |r| >= 2 && r[|r| - 1] == h[|h| - 1]
    ensures size(r) <= MAX_TOKENS || |r| <= 2
    decreases |h|
  {
    if size(h) > MAX_TOKENS && |h| > 2 then
      var r := TrimKeepingLatest(KeepFrom(h, 2), size);
      KeepFromShift(h, |h| - |r|);
      r
    else h
  }

  /** Where the two trims agree: as long as the loop as written never gets
      down to a single entry, it is the corrected trim. */
  lemma {:induction false} TrimsAgreeAboveTwo(h: seq<Turn>, size: seq<Turn> -> nat)
    requires |Trimmed(h, size)| >= 2
    ensures Trimmed(h, size) == TrimKeepingLatest(h, size)
    decreases |h|
  {
    if size(h) > MAX_TOKENS && |h| > 2 {
      TrimsAgreeAboveTwo(KeepFrom(h, 2), size);
    }
  }

  /** Where the two trims differ: when the loop as written gets down to the
      first entry alone, every longer tail was over budget, so the corrected
      trim stops at the first entry and the newest one. */
  lemma TrimsDifferAtOne(h: seq<Turn>, size: seq<Turn> -> nat)
    requires |h| >= 2 && |Trimmed(h, size)| == 1
    ensures Trimmed(h, size) == [h[0]]
    ensures TrimKeepingLatest(h, size) == [h[0], h[|h| - 1]]
  {
    var r := TrimKeepingLatest(h, size);
    if |r| > 2 {
      TrimmedIsMinimal(h, size, |h| - |r| + 1);
    }
    assert |r| == 2;
  }

  /** As written the loop can remove the newest entry: with two entries over
      budget (an oversized first message, say) `pop(1)` takes the second, the
      one just appended. */
  lemma TrimDropsNewestEntry()
    ensures var size := (x: seq<Turn>) => 4001 * |x|;
            var h := [Turn(User, "first"), Turn(User, "latest")];
            && Trimmed(h, size) == [Turn(User, "first")]
            && TrimKeepingLatest(h, size) == h
  {
    var size := (x: seq<Turn>) => 4001 * |x|;
    var h := [Turn(User, "first"), Turn(User, "latest")];
    assert KeepFrom(h, 2) == [Turn(User, "first")];
  }
}
